=== FILE: README.md ===
# Model-architecture abstraction layer of the attention visualiser backend

This project models, in Dafny, the layer of `backend/src/models.py` that hides the
differences between the supported causal language models: GPT-style transformers
(GPT-2, GPT-J, GPT-Neo, GPT-NeoX), Llama-style transformers, the Mamba state-space model,
and pythia, a GPT-NeoX variant with its own module names. It covers:

- the architecture classifiers (`is_pythia_variant`, `is_gpt_variant`, `is_llama_variant`,
  `is_mamba_variant`, `is_mamba_fast`);
- the path resolvers for the embedding, the final norm, the output head, the layer count
  and the per-block paths (`determine_layer_paths`);
- `ModelandTokenizer.parse_config`, the metadata record it sets and the warnings it prints;
- the forward-function snapshot (`cache_forwards`) and its restoration (`reset_forward`);
- the `lm_head` property and `LMHead.forward` as "final norm, then head";
- `maybe_prefix_eos`, `untuple`, `unwrap_model` and the byte count of `get_model_size`.

A loaded model is replaced by a descriptor (`Descriptor.Model`). It records the model's
class, the configuration attributes the code reads, whether a `backbone` submodule exists,
the lengths of the layer lists, and the table of named submodules with their current
forward functions. Forward functions are opaque identities (`FnId`). Python exceptions
become `Result` failures with an `Error` value. `reset_forward` can raise part-way through,
after it has already restored the modules before the failing one, so it returns that
partly restored table too (`Forwards.ResetOutcome`).

Files: `wrappers.dfy` (Option/Result), `strings.dfy` (lower-casing, substring search,
`str(int)`, format templates), `descriptor.dfy` (data model, `unwrap_model`),
`classify.dfy`, `paths.dfy`, `config_parsing.dfy` (`parse_config`), `forwards.dfy`,
`handles.dfy` (construction, `lm_head`, `LMHead`), `helpers.dfy`.

Three properties of the code shape the model:

- No layer index is range-checked (backend/src/models.py:432-445). A negative index is
  shifted once by the layer count and then used as is, so `-n_layer - 1` gives a path
  ending in `-1`, and a non-negative index beyond the last block still gets a path
  (`Paths.NegativeIndex`, `Paths.IndexNeverRangeChecked`).
- There is no single classification function; each function keeps its own first-match
  order and its own constants. The three component resolvers test GPT, then the Llama
  class, then the Mamba class, then pythia (backend/src/models.py:307-348). The per-block
  template is chosen by class alone (backend/src/models.py:436-444). `parse_config` tests
  Mamba, then Llama, then GPT (backend/src/models.py:83-113). For example, `parse_config`
  names the GPT head `transformer.lm_head`, while `determine_lm_head_path` names it `lm_head`.
- Metadata that `parse_config` leaves unset is `None`, and the `lm_head` property then
  raises a lookup error on the unset name (backend/src/models.py:127-128;
  `Handles.LmHead`, `Handles.HeadNamesFromConfig`).

The classifiers `is_pythia_variant`, `is_gpt_variant`, `is_llama_variant`,
`is_mamba_variant` and `is_mamba_fast` are the predicates `Classify.IsPythia`,
`Classify.IsGpt`, `Classify.IsLlama`, `Classify.IsMamba` and `Classify.IsMambaFast`
(with the helpers `Classify.NameMentions` and `Classify.IsGptClass`). The `Classify`
lemmas in the table below state what they decide.

## Model

| member | source | states |
|---|---|---|
| `Descriptor.UnwrapModel` | backend/src/models.py:210-215 | a handle gives its model, a torch module gives itself, and anything else raises `ValueError` |
| `Paths.HandleResolvesAsItsModel` | backend/src/models.py:210-215 | a handle whose model is a torch module gets from every resolver (embedding, final norm, head, layers, layer paths) exactly what its model gets when passed on its own |
| `Strings.Contains` | backend/src/models.py:248 | Python's substring `in` is true exactly when the needle occurs somewhere in the string (the empty needle always occurs) |
| `Strings.IntToString` | backend/src/models.py:437-444 | the decimal text of an index reads back as the same integer, starts with `-` exactly for negative indices, is digits after the sign, and has no leading zero, so 0 is exactly `"0"` |
| `Strings.FormatInjective` | backend/src/models.py:117 | filling a one-placeholder template with two different integers gives two different strings |
| `Classify.NameMentionsMeaning` | backend/src/models.py:248 | a name test is a case-insensitive substring test, and it is false when the object has no config or no `_name_or_path` |
| `Classify.GptClassification` | backend/src/models.py:253-270 | an object is a GPT variant exactly when its class is in the GPT list and its name does not mention "pythia" in any case, so a pythia GPTNeoX is never GPT |
| `Classify.LlamaClassification` | backend/src/models.py:273-284 | the Llama class is always Llama; any other class is Llama exactly when its name mentions "llama" or "mistral" |
| `Classify.MissingNameDisablesNameTests` | backend/src/models.py:243-284 | without a name, pythia is false, Llama falls back to the class, and GPT depends on the class alone |
| `Classify.ClassifiersIgnoreCase` | backend/src/models.py:243-284 | two names that lower-case to the same string classify the same way |
| `Paths.EmbeddingLayerPath` | backend/src/models.py:307-319 | the embedding path exists exactly for modules that pass one of the four tests; every other module raises "unknown model type" with its class name |
| `Paths.FinalLayerNormPath` | backend/src/models.py:322-334 | the same success condition and error for the final-norm path |
| `Paths.LmHeadPath` | backend/src/models.py:337-348 | the same success condition and error for the head path |
| `Paths.ResolversFailTogether` | backend/src/models.py:307-348 | the three component resolvers raise for exactly the same arguments |
| `Paths.EmbeddingPathBranches` | backend/src/models.py:307-319 | each embedding constant comes back exactly for the objects that reach its branch in the order GPT, Llama class, Mamba, pythia: `transformer.wte`, `model.embed_tokens`, `embedding` behind the optional `backbone.` prefix for exactly the Mamba models, `gpt_neox.embed_in` |
| `Paths.FinalNormPathBranches` | backend/src/models.py:322-334 | the same first-match characterisation for the final-norm constants: `transformer.ln_f`, `model.norm`, `norm_f` behind the optional `backbone.` prefix for exactly the Mamba models, `gpt_neox.final_layer_norm` |
| `Paths.HeadPathBranches` | backend/src/models.py:337-348 | `lm_head` comes back exactly for GPT variants and Mamba models; `model.lm_head` for the Llama class; `embed_out` for pythia models that are neither Llama nor Mamba class |
| `Paths.MambaBackbonePrefix` | backend/src/models.py:313-344 | for a Mamba model, the embedding and final-norm paths with a backbone are the paths without it behind `backbone.`; the head path is `lm_head` in both cases |
| `Paths.MambaFastPaths` | backend/src/models.py:294-298 | a Mamba model is `is_mamba_fast` exactly when its embedding path is `backbone.embedding` and exactly when block 0 is `backbone.layers.0` |
| `Paths.Layers` | backend/src/models.py:351-369 | `determine_layers` is the tuple 0 .. n_layer-1; it succeeds exactly when the object unwraps (otherwise `unwrap_model`'s `ValueError`), the unwrapped object is a torch module (otherwise the `isinstance` assertion fails) and the layer count can be read |
| `Paths.Collect` | backend/src/models.py:423-445 | the loop fills the dict with every reference mapped to its own path and keeps earlier entries; it stops at the first reference that raises, with that error |
| `Paths.RequestedRefs` | backend/src/models.py:418-419 | with no list given, the references are the indices 0 .. n_layer-1 in order |
| `Paths.LayerPaths` | backend/src/models.py:397-447 | with `return_dict` the keys are exactly the distinct requested references; without it the tuple has one path per reference, in order, duplicates kept; an unwrapped object that is not a torch module fails the `isinstance` assertion; otherwise a failure carries the error of the first failing reference |
| `Paths.NonModuleHandleStops` | backend/src/models.py:416-421 | a handle holding something other than a torch module fails the `isinstance` assertion in `determine_layers` and, for an explicit list, in `determine_layer_paths`; with no list, `determine_layers` unwraps the bare object again and raises `ValueError` first |
| `Paths.NegativeIndex` | backend/src/models.py:432-434 | a negative index `i` resolves to block `n_layer + i` (so `-k` equals `n_layer - k` when k <= n_layer), raises only if the count cannot be read, and below `-n_layer` gives a negative block number |
| `Paths.IndexNeverRangeChecked` | backend/src/models.py:432-445 | a non-negative index always resolves, however large, and unknown classes use `transformer.h.{i}` |
| `Paths.SymbolicRefsUseResolvers` | backend/src/models.py:425-430 | for a module whose every requested reference resolves, the tuple lookup succeeds and each `"emb"` or `"ln_f"` slot, wherever it appears, holds the embedding or final-norm resolver's path |
| `Paths.AllLayersDistinct` | backend/src/models.py:397-447 | with no list given, resolution succeeds exactly when the object is a torch module (a handle's model or the object itself) and the layer count can be read, and it yields n_layer pairwise-distinct block paths |
| `Paths.TupleFromPaths` | backend/src/models.py:447 | when every reference resolves, the tuple lists exactly those paths in request order |
| `Paths.GptScenario` | backend/src/models.py:397-447 | for a GPT-2 model with 12 blocks, `["emb", 0, -1, "ln_f"]` gives `transformer.wte`, `transformer.h.0`, `transformer.h.11`, `transformer.ln_f` |
| `Paths.NeoXPaths` | backend/src/models.py:436-437 | a GPTNeoX model always gets `gpt_neox.layers.{i}` blocks, while its embedding path is `gpt_neox.embed_in` only for pythia and `transformer.wte` otherwise |
| `ConfigParsing.ParseConfig` | backend/src/models.py:73-123 | the Mamba branch runs exactly for the Mamba class or a name containing "mamba", and it leaves the module formats unset; `layer_names[i]` is the format filled with `i` and exists exactly when the format and `n_layer` do; an unrecognised model gets every field `None`; only missing attributes raise |
| `ConfigParsing.WarningsAllOrNothing` | backend/src/models.py:115-123 | a recognised model gets no warning; an unrecognised one gets a warning for each of the nine fields, in dict order |
| `ConfigParsing.PythiaGetsNoMetadata` | backend/src/models.py:83-113 | a pythia GPTNeoX model whose name mentions neither llama, mistral nor mamba gets no metadata at all |
| `ConfigParsing.LlamaBeforeGpt` | backend/src/models.py:95-113 | a GPT-class model whose name mentions llama gets the Llama names and `num_hidden_layers` |
| `Forwards.CacheForwards` | backend/src/models.py:132-140 | the snapshot's keys are exactly the module names, and each name maps to the forward of the last module with that name |
| `Forwards.CacheOfDistinct` | backend/src/models.py:137-140 | with distinct names, the snapshot maps every module to its own forward |
| `Forwards.ResetForward` | backend/src/models.py:142-148 | names are kept; the reset completes exactly when every name is cached and then sets each forward to its cached entry; otherwise it raises at the first uncached name, after restoring the earlier modules and leaving the later ones untouched |
| `Forwards.FirstUncached` | backend/src/models.py:146-148 | the position where the reset loop raises: every module before it has a cached name, and it is either the end of the list or a module whose name is not cached |
| `Forwards.RestoreAfterOverwrites` | backend/src/models.py:132-148 | whatever overwrites happen after caching, resetting gives back the cached table |
| `Forwards.FirstUncachedSameNames` | backend/src/models.py:146-148 | the reset loop stops at the same position on two tables with the same names, whatever their forwards |
| `Forwards.ResetIdempotent` | backend/src/models.py:142-148 | resetting twice is the same as resetting once, including when the first reset raises: the second raises at the same name with the same partly restored table |
| `Forwards.AddedModuleRaises` | backend/src/models.py:146-148 | a module added after caching makes the reset raise at that module |
| `Handles.NewHandle` | backend/src/models.py:59-71 | construction succeeds exactly when `parse_config` does; the handle keeps the given model, tokenizer and name, holds the metadata `parse_config` produced, and caches a forward for every module name, each name mapping to the forward of its last module (with distinct names, its own module's) |
| `Handles.SessionLeavesHandleUnchanged` | backend/src/models.py:66-148 | on a freshly built handle, any instrumentation followed by `reset_forward` leaves the modules as they were at construction |
| `Handles.GetModule` | backend/src/models.py:127-128 | a lookup by name succeeds exactly for names of existing modules; an unset name raises |
| `Handles.LmHead` | backend/src/models.py:125-130 | the property succeeds exactly when the head name and the final-norm name are set and name modules; the head is looked up first |
| `Handles.HeadForward` | backend/src/models.py:183-192 | the head's output is the head module's current forward applied to the final-norm module's current forward of the input |
| `Handles.HeadSurvivesInstrumentation` | backend/src/models.py:125-192 | the two modules of a head `lm_head` returned stay in the table after any overwrites, so the head can still be applied |
| `Handles.HeadForwardAfterReset` | backend/src/models.py:177-192 | after a reset, the head applies the cached final-norm forward and then the cached head forward |
| `Handles.HeadNamesFromConfig` | backend/src/models.py:73-130 | a model with no `parse_config` branch has no head name, so `lm_head` raises on the unset name; a recognised one has both names set, and `lm_head` succeeds exactly when they name modules |
| `Helpers.MaybePrefixEos` | backend/src/models.py:233-240 | a tokenizer without `eos_token` leaves the prompt alone; otherwise the result starts with the EOS token, and it is the prompt when the prompt already starts with it and `eos + " " + prompt` when it does not; an EOS of `None` raises |
| `Helpers.MaybePrefixEosIdempotent` | backend/src/models.py:233-240 | a second call changes nothing |
| `Helpers.Untuple` | backend/src/models.py:224-227 | a tuple gives its first element, anything else comes back unchanged, and an empty tuple raises |
| `Helpers.BytesAppend` | backend/src/models.py:198-205 | the byte total of two lists of tensors is the sum of their totals |
| `Helpers.Denominator` | backend/src/models.py:206 | every unit denominator is positive |
| `Helpers.ModelSize` | backend/src/models.py:195-207 | the two accumulation loops give the byte total of the parameters and buffers together, and the denominator of the unit |

## Left out

- `backend/app.py` (Flask routes, static files, YAML config, start-up), `frontend/` and
  `backend/src/utils/dataclasses.py`: plumbing and a float-formatting data holder, not the core.
- Model and tokenizer loading in `ModelandTokenizer.__init__` (lines 29-64): `from_pretrained`,
  device choice, `.eval()`, setting `pad_token`, logging. These are library calls and hardware
  state. `Handles.NewHandle` takes the loaded model and the handle's name as inputs.
- `determine_hidden_size`, `determine_device`, `determine_dtype`, `any_parameter`: tensor
  shapes and devices of the parameters.
- `baukit.get_module` is not part of this model. A lookup is modelled as a search by name in
  the module table that fails when no module has the name.
- `src/utils/typing.py` is not part of this model. Its `Model` and `Layer` types are taken to
  mean: the `isinstance(model, Model)` assertions (lines 354 and 421) hold for every torch
  module, and a layer reference is an integer, `"emb"` or `"ln_f"`. Any other string would
  raise on `layer_index < 0`, and that is not modelled.
- The numerics of `LMHead.forward`: a module's forward is an opaque id, and `run` applies one.
- The float division in `get_model_size`: `Helpers.ModelSize` returns the byte total and the
  denominator.
- The hook-installing instrumentation and the tensor serialiser: `backend/app.py` imports
  them from `src/attention` and `src/functional`, which are not part of this model.
  Neither `backend/app.py` nor `backend/src/models.py` takes any lock, so there is no
  access gate to model. Instrumentation is modelled only as overwrites of forward functions.
- `.lower()` is modelled for ASCII letters only; Unicode case mapping is left out.
- A `_name_or_path` attribute that exists but holds `None` is not modelled. A name is
  either absent or a string.
- Modules without a `forward` attribute: every `torch.nn.Module` has one, so the module
  table lists every named module.
- The attributes an unrecognised model leaves unset in `parse_config` are still present with
  value `None`. The `Metadata` record has every field by construction.
- `Paths.HandleResolvesAsItsModel` assumes the handle's model is a torch module, which
  holds for every handle `__init__` builds (it loads a causal language model); the
  descriptor does not enforce it, and `Paths.NonModuleHandleStops` gives what the
  layer functions do for a handle that breaks it.
- The insertion order of the dict `determine_layer_paths` returns (each reference where it
  first appears in the request): a Dafny `map` has no order, and nothing in
  `backend/src/models.py` iterates that dict. The tuple form keeps the request order.

=== FILE: classify.dfy ===
/**
  The architecture classifiers `is_pythia_variant`, `is_gpt_variant`,
  `is_llama_variant`, `is_mamba_variant` and `is_mamba_fast`. They are stated on the
  object itself; a `ModelandTokenizer` argument is first replaced by its model
  (`Descriptor.Target`).
*/
module Classify {
  import opened Wrappers
  import opened Strings
  import opened Descriptor

  /** The configuration name contains `needle`, ignoring case; false when there is no name. */
  predicate NameMentions(m: Model, needle: string) {
    match NameOrPath(m)
    case Some(n) => Contains(Lower(n), needle)
    case None => false
  }

  /** `is_pythia_variant`: a missing config or name makes the test false (the `except` path). */
  predicate IsPythia(m: Model) {
    NameMentions(m, "pythia")
  }

  /** The classes (models and tokenizers) in `is_gpt_variant`'s `isinstance` test. */
  predicate IsGptClass(c: ModelClass) {
    || c.GPT2LMHeadModel? || c.GPTJForCausalLM? || c.GPTNeoForCausalLM?
    || c.GPTNeoXForCausalLM? || c.GPT2TokenizerFast? || c.GPTNeoXTokenizerFast?
  }

  /** `is_gpt_variant`: pythia is excluded before the class test. */
  predicate IsGpt(m: Model) {
    !IsPythia(m) && IsGptClass(m.cls)
  }

  /** `is_llama_variant`: the Llama class, or otherwise a name mentioning llama or mistral. */
  predicate IsLlama(m: Model) {
    m.cls.LlamaForCausalLM? || NameMentions(m, "llama") || NameMentions(m, "mistral")
  }

  /** `is_mamba_variant`. */
  predicate IsMamba(m: Model) {
    m.cls.Mamba?
  }

  /** `is_mamba_fast`: a Mamba model that has a `backbone` submodule. */
  predicate IsMambaFast(m: Model) {
    IsMamba(m) && m.backbone.Some?
  }

  /** The name test is a case-insensitive substring test, and false without a name. */
  lemma NameMentionsMeaning(m: Model, needle: string)
    ensures NameMentions(m, needle) <==>
      (NameOrPath(m).Some? && Occurs(needle, Lower(NameOrPath(m).value)))
  {
  }

  /**
    Whatever the class, a name mentioning "pythia" in any letter case makes the object
    not a GPT variant; otherwise it is one exactly when its class is in the GPT list.
  */
  lemma GptClassification(m: Model)
    ensures IsGpt(m) <==>
      (IsGptClass(m.cls) && !(NameOrPath(m).Some? && Occurs("pythia", Lower(NameOrPath(m).value))))
    ensures m.cls.GPTNeoXForCausalLM? && IsPythia(m) ==> !IsGpt(m)
  {
    NameMentionsMeaning(m, "pythia");
  }

  /** The Llama class is always Llama; any other class is Llama only by name. */
  lemma LlamaClassification(m: Model)
    ensures m.cls.LlamaForCausalLM? ==> IsLlama(m)
    ensures !m.cls.LlamaForCausalLM? ==>
      (IsLlama(m) <==>
        (NameOrPath(m).Some? &&
         (Occurs("llama", Lower(NameOrPath(m).value)) || Occurs("mistral", Lower(NameOrPath(m).value)))))
  {
    NameMentionsMeaning(m, "llama");
    NameMentionsMeaning(m, "mistral");
  }

  /** Without a name, the pythia test fails and the Llama test falls back to the class. */
  lemma MissingNameDisablesNameTests(m: Model)
    requires NameOrPath(m).None?
    ensures !IsPythia(m)
    ensures IsLlama(m) <==> m.cls.LlamaForCausalLM?
    ensures IsGpt(m) <==> IsGptClass(m.cls)
  {
  }

  /** The name tests look at the name only through its lower-cased form. */
  lemma ClassifiersIgnoreCase(m: Model, n1: string, n2: string)
    requires m.config.Some?
    requires Lower(n1) == Lower(n2)
    ensures var a := m.(config := Some(m.config.value.(nameOrPath := Some(n1))));
            var b := m.(config := Some(m.config.value.(nameOrPath := Some(n2))));
            (IsPythia(a) <==> IsPythia(b)) && (IsGpt(a) <==> IsGpt(b)) && (IsLlama(a) <==> IsLlama(b))
  {
  }
}

=== FILE: config_parsing.dfy ===
/**
  `ModelandTokenizer.parse_config`: the fixed record of architecture metadata set on the
  handle, and the warnings printed for the fields that stay `None`.
*/
module ConfigParsing {
  import opened Wrappers
  import opened Strings
  import opened Descriptor
  import opened Classify

  /** `layer_names`: set only when both the format and the layer count are. */
  function LayerNames(format: Option<Template>, n: Option<nat>): Option<seq<string>> {
    if format.Some? && n.Some? then Some(seq(n.value, i => Format(format.value, i))) else None
  }

  /** The record `parse_config` starts from outside its Mamba branch: every field `None`. */
  const Unrecognised := Metadata(None, None, None, None, None, None, None, Some(ModuleFormats(None, None)))

  /** The argument `__init__` passes: no config for a Mamba object, `model.config` otherwise. */
  function ConfigArgument(m: Model): Result<Option<Config>, Error> {
    if IsMamba(m) then Success(None)
    else
      var c :- ConfigOf(m);
      Success(Some(c))
  }

  /** The branch-specific fields, before `layer_names` is derived. */
  function BranchFields(m: Model, name: string, cfg: Option<Config>): Result<Metadata, Error>
    requires !IsMamba(m) ==> cfg.Some?
  {
    if IsMamba(m) || Contains(Lower(name), "mamba") then
      var n :- Required(m.layers, "layers");
      var e :- Required(m.embeddingWidth, "embedding");
      Success(Metadata(Some(n), Some(e), Some(Template("layers.", "")), None,
                       Some("embedding"), Some("norm_f"), Some("lm_head"), None))
    else if IsLlama(m) then
      var n :- Required(cfg.value.numHiddenLayers, "num_hidden_layers");
      var e :- Required(cfg.value.hiddenSize, "hidden_size");
      Success(Metadata(Some(n), Some(e), Some(Template("model.layers.", "")), None,
                       Some("model.embed_tokens"), Some("model.norm"), Some("model.lm_head"),
                       Some(ModuleFormats(Some(Template("model.layers.", ".self_attn")),
                                          Some(Template("model.layers.", ".mlp"))))))
    else if IsGpt(m) then
      var n :- Required(cfg.value.nLayer, "n_layer");
      var e :- Required(cfg.value.nEmbd, "n_embd");
      Success(Metadata(Some(n), Some(e), Some(Template("transformer.h.", "")), None,
                       Some("transformer.wte"), Some("transformer.ln_f"), Some("transformer.lm_head"),
                       Some(ModuleFormats(Some(Template("transformer.h.", ".attn")),
                                          Some(Template("transformer.h.", ".mlp"))))))
    else
      Success(Unrecognised)
  }

  /** Whether the model is one `parse_config` has a branch for. */
  predicate Recognised(m: Model, name: string) {
    IsMamba(m) || Contains(Lower(name), "mamba") || IsLlama(m) || IsGpt(m)
  }

  /**
    `parse_config` as `__init__` calls it. The Mamba branch is taken for the Mamba class or
    a name mentioning "mamba" and never sets the two module-format attributes;
    `layer_names[i]` is the layer format filled with `i`, present exactly when both the
    format and `n_layer` are; unrecognised models get every field `None`.
  */
  function ParseConfig(m: Model, name: string): (r: Result<Metadata, Error>)
    ensures r.Failure? ==> r.error.MissingAttribute?
    ensures r.Success? ==> (r.value.moduleFormats.None? <==> (IsMamba(m) || Occurs("mamba", Lower(name))))
    ensures r.Success? ==> (r.value.layerNames.Some? <==> r.value.layerNameFormat.Some? && r.value.nLayer.Some?)
    ensures r.Success? && r.value.layerNames.Some? ==>
      && |r.value.layerNames.value| == r.value.nLayer.value
      && forall i :: 0 <= i < r.value.nLayer.value ==>
           r.value.layerNames.value[i] == Format(r.value.layerNameFormat.value, i)
    ensures r.Success? && !Recognised(m, name) ==> r.value == Unrecognised
  {
    var cfg :- ConfigArgument(m);
    var fields :- BranchFields(m, name, cfg);
    Success(fields.(layerNames := LayerNames(fields.layerNameFormat, fields.nLayer)))
  }

  /** The field names in the order `parse_config` inserts them into its dict. */
  const AllFieldNames := ["n_layer", "n_embd", "layer_name_format", "layer_names", "embedder_name",
                          "final_layer_norm_name", "lm_head_name", "attn_module_name_format",
                          "mlp_module_name_format"]

  function WarnIf(unset: bool, field: string): seq<string> {
    if unset then [field] else []
  }

  /** The fields `parse_config` prints a warning for, in dict order: those left `None`. */
  function UnsetFields(meta: Metadata): seq<string> {
    WarnIf(meta.nLayer.None?, "n_layer")
    + WarnIf(meta.nEmbd.None?, "n_embd")
    + WarnIf(meta.layerNameFormat.None?, "layer_name_format")
    + WarnIf(meta.layerNames.None?, "layer_names")
    + WarnIf(meta.embedderName.None?, "embedder_name")
    + WarnIf(meta.finalLayerNormName.None?, "final_layer_norm_name")
    + WarnIf(meta.lmHeadName.None?, "lm_head_name")
    + (match meta.moduleFormats
       case None => []
       case Some(f) => WarnIf(f.attn.None?, "attn_module_name_format") + WarnIf(f.mlp.None?, "mlp_module_name_format"))
  }

  /**
    Metadata is never partial: a recognised model gets no warning at all, an unrecognised
    one a warning for every field.
  */
  lemma WarningsAllOrNothing(m: Model, name: string)
    requires ParseConfig(m, name).Success?
    ensures Recognised(m, name) ==> UnsetFields(ParseConfig(m, name).value) == []
    ensures !Recognised(m, name) ==> UnsetFields(ParseConfig(m, name).value) == AllFieldNames
  {
    var meta := ParseConfig(m, name).value;
    if Recognised(m, name) {
      CompleteHasNoWarnings(meta);
    }
  }

  lemma CompleteHasNoWarnings(meta: Metadata)
    requires meta.nLayer.Some? && meta.nEmbd.Some? && meta.layerNameFormat.Some? && meta.layerNames.Some?
    requires meta.embedderName.Some? && meta.finalLayerNormName.Some? && meta.lmHeadName.Some?
    requires meta.moduleFormats.None? || (meta.moduleFormats.value.attn.Some? && meta.moduleFormats.value.mlp.Some?)
    ensures UnsetFields(meta) == []
  {
  }

  /**
    A pythia model of the GPTNeoX class whose name mentions neither llama, mistral nor
    mamba is excluded from the GPT branch and so gets no metadata at all.
  */
  lemma PythiaGetsNoMetadata(m: Model, name: string)
    requires m.cls.GPTNeoXForCausalLM? && m.config.Some? && IsPythia(m) && !IsLlama(m)
    requires !Occurs("mamba", Lower(name))
    ensures ParseConfig(m, name) == Success(Unrecognised)
  {
  }

  /** The Llama test comes first: a GPT-class model whose name mentions llama gets Llama names. */
  lemma LlamaBeforeGpt(m: Model, name: string)
    requires IsGpt(m) && IsLlama(m) && !Occurs("mamba", Lower(name))
    requires ParseConfig(m, name).Success?
    ensures ParseConfig(m, name).value.embedderName == Some("model.embed_tokens")
    ensures ParseConfig(m, name).value.nLayer == m.config.value.numHiddenLayers
  {
  }
}

=== FILE: descriptor.dfy ===
/**
  The data the abstraction layer works on. A loaded model is replaced by a descriptor
  that records only what the classifiers and resolvers inspect: its class, the
  attributes of its configuration, whether it has a `backbone` submodule, the lengths
  of its layer lists and its table of named submodules with their current forward
  functions. `ModelandTokenizer` becomes `Handle`.
*/
module Descriptor {
  import opened Wrappers
  import opened Strings

  /** An opaque identity for a module's forward function (compared by identity only). */
  type FnId = nat

  /**
    The classes the source tests with `isinstance`. The two tokenizer classes appear
    because `is_gpt_variant` accepts tokenizers too. `OtherModule` is any other
    `torch.nn.Module`; `OtherObject` is anything else (for example another tokenizer).
  */
  datatype ModelClass =
    | GPT2LMHeadModel
    | GPTJForCausalLM
    | GPTNeoForCausalLM
    | GPTNeoXForCausalLM
    | LlamaForCausalLM
    | Mamba
    | GPT2TokenizerFast
    | GPTNeoXTokenizerFast
    | OtherModule(moduleName: string)
    | OtherObject(objectName: string)

  /** `type(obj).__name__`, used in the resolvers' error message. */
  function ClassName(c: ModelClass): string {
    match c
    case GPT2LMHeadModel => "GPT2LMHeadModel"
    case GPTJForCausalLM => "GPTJForCausalLM"
    case GPTNeoForCausalLM => "GPTNeoForCausalLM"
    case GPTNeoXForCausalLM => "GPTNeoXForCausalLM"
    case LlamaForCausalLM => "LlamaForCausalLM"
    case Mamba => "Mamba"
    case GPT2TokenizerFast => "GPT2TokenizerFast"
    case GPTNeoXTokenizerFast => "GPTNeoXTokenizerFast"
    case OtherModule(n) => n
    case OtherObject(n) => n
  }

  /** Whether objects of this class are `torch.nn.Module`s (tokenizers are not). */
  predicate IsTorchModule(c: ModelClass) {
    !(c.GPT2TokenizerFast? || c.GPTNeoXTokenizerFast? || c.OtherObject?)
  }

  /** The attributes of `model.config` that the core reads; `None` = attribute absent. */
  datatype Config = Config(
    nameOrPath: Option<string>,
    nLayer: Option<nat>,
    numHiddenLayers: Option<nat>,
    nEmbd: Option<nat>,
    hiddenSize: Option<nat>)

  /** The `backbone` submodule of a Mamba model, reduced to the length of its `layers`. */
  datatype Backbone = Backbone(layerCount: nat)

  /** One entry of `model.named_modules()`: its dotted name and its current `forward`. */
  datatype Module = Module(name: string, forward: FnId)

  /**
    A model object. `config`, `backbone`, `layers` (the length of `model.layers`) and
    `embeddingWidth` (`model.embedding.weight.shape[-1]`) are `None` when the object has
    no such attribute. `modules` is `named_modules()` in iteration order.
  */
  datatype Model = Model(
    cls: ModelClass,
    config: Option<Config>,
    backbone: Option<Backbone>,
    layers: Option<nat>,
    embeddingWidth: Option<nat>,
    modules: seq<Module>)

  /** The tokenizer's `eos_token` attribute: absent, present but `None`, or a string. */
  datatype EosToken = NoEosAttribute | EosIsNone | Eos(token: string)

  datatype Tokenizer = Tokenizer(eos: EosToken)

  /** The `attn_module_name_format` and `mlp_module_name_format` fields. */
  datatype ModuleFormats = ModuleFormats(attn: Option<Template>, mlp: Option<Template>)

  /**
    The metadata `parse_config` sets on the handle. `moduleFormats` is `None` when the
    two module-format attributes are never set at all (the Mamba branch).
  */
  datatype Metadata = Metadata(
    nLayer: Option<nat>,
    nEmbd: Option<nat>,
    layerNameFormat: Option<Template>,
    layerNames: Option<seq<string>>,
    embedderName: Option<string>,
    finalLayerNormName: Option<string>,
    lmHeadName: Option<string>,
    moduleFormats: Option<ModuleFormats>)

  /** `ModelandTokenizer`: the model, its tokenizer, its name, metadata and forward cache. */
  datatype Handle = Handle(
    model: Model,
    tokenizer: Tokenizer,
    name: string,
    meta: Metadata,
    moduleForwards: map<string, FnId>)

  /** What the public functions accept: a `ModelandTokenizer` or a bare object. */
  datatype Subject = OfHandle(handle: Handle) | OfObject(obj: Model)

  /** What the tokenizer helpers accept: a `ModelandTokenizer` or a bare tokenizer. */
  datatype TokenizerSubject = TokenizerOfHandle(owner: Handle) | BareTokenizer(tokenizer: Tokenizer)

  /** The exceptions the core raises. */
  datatype Error =
    | UnknownModelType(typeName: string)   // ValueError("unknown model type: ...")
    | NotAModule                           // ValueError from unwrap_model
    | NotAModel                            // AssertionError: isinstance(model, Model)
    | MissingAttribute(attribute: string)  // AttributeError
    | ModuleNotFound(path: Option<string>) // lookup of a submodule by name failed
    | EosTokenIsNone                       // TypeError: startswith(None)
    | EmptyTuple                           // IndexError: tuple index out of range

  /** The object a classifier looks at: a handle is unwrapped, anything else is used as is. */
  function Target(s: Subject): Model {
    match s
    case OfHandle(h) => h.model
    case OfObject(m) => m
  }

  /** `unwrap_model`: the handle's model, the object itself if it is a module, or an error. */
  function UnwrapModel(s: Subject): (r: Result<Model, Error>)
    ensures r.Success? <==> (s.OfHandle? || IsTorchModule(s.obj.cls))
    ensures r.Success? ==> r.value == Target(s)
    ensures r.Failure? ==> r.error == NotAModule
  {
    match s
    case OfHandle(h) => Success(h.model)
    case OfObject(m) => if IsTorchModule(m.cls) then Success(m) else Failure(NotAModule)
  }

  /** `unwrap_tokenizer`: the handle's tokenizer, or the argument itself. */
  function UnwrapTokenizer(t: TokenizerSubject): Tokenizer {
    match t
    case TokenizerOfHandle(h) => h.tokenizer
    case BareTokenizer(tok) => tok
  }

  /** The name of the model's configuration, when both `config` and `_name_or_path` exist. */
  function NameOrPath(m: Model): Option<string> {
    if m.config.Some? then m.config.value.nameOrPath else None
  }

  /** Reads one optional attribute, raising `AttributeError` for the given name when absent. */
  function Required<T>(v: Option<T>, attribute: string): Result<T, Error> {
    if v.Some? then Success(v.value) else Failure(MissingAttribute(attribute))
  }

  /** `model.config`, raising `AttributeError` when the object has none. */
  function ConfigOf(m: Model): Result<Config, Error> {
    if m.config.Some? then Success(m.config.value) else Failure(MissingAttribute("config"))
  }
}

=== FILE: forwards.dfy ===
/**
  The forward-function cache of `ModelandTokenizer`: `cache_forwards` snapshots every
  named module's `forward`, instrumentation overwrites some of them, and
  `reset_forward` writes the snapshot back.
*/
module Forwards {
  import opened Wrappers
  import opened Descriptor

  function Names(mods: seq<Module>): set<string> {
    set m | m in mods :: m.name
  }

  /** `named_modules()` yields every name once. */
  ghost predicate DistinctNames(mods: seq<Module>) {
    forall i, j :: 0 <= i < j < |mods| ==> mods[i].name != mods[j].name
  }

  /** The two tables list the same module names in the same order. */
  ghost predicate SameNames(a: seq<Module>, b: seq<Module>) {
    |a| == |b| && forall i :: 0 <= i < |a| ==> a[i].name == b[i].name
  }

  /**
    `cache_forwards`: a dict from every module name to its current forward. Its keys are
    exactly the module names, and each name maps to the forward of the last module
    carrying it (with distinct names, to that module's own forward).
  */
  function CacheForwards(mods: seq<Module>): (r: map<string, FnId>)
    ensures r.Keys == Names(mods)
    ensures forall i :: 0 <= i < |mods| && (forall j :: i < j < |mods| ==> mods[j].name != mods[i].name) ==>
      r[mods[i].name] == mods[i].forward
  {
    if |mods| == 0 then map[]
    else
      var init := mods[..|mods| - 1];
      var last := mods[|mods| - 1];
      assert mods == init + [last];
      assert forall i :: 0 <= i < |init| ==> init[i] == mods[i];
      CacheForwards(init)[last.name := last.forward]
  }

  /** `module.forward = f` for the module named `name`; nothing else changes. */
  function SetForward(mods: seq<Module>, name: string, f: FnId): (r: seq<Module>)
    ensures SameNames(mods, r)
    ensures forall i :: 0 <= i < |mods| ==>
      r[i].forward == (if mods[i].name == name then f else mods[i].forward)
  {
    seq(|mods|, i requires 0 <= i < |mods| =>
      if mods[i].name == name then Module(name, f) else mods[i])
  }

  /** A sequence of overwrites, applied in order (what an instrumentation session does). */
  function Overwrite(mods: seq<Module>, ops: seq<(string, FnId)>): (r: seq<Module>)
    ensures SameNames(mods, r)
    decreases |ops|
  {
    if |ops| == 0 then mods
    else Overwrite(SetForward(mods, ops[0].0, ops[0].1), ops[1..])
  }

  /**
    The state after `reset_forward`: every module restored, or the loop stopped by a
    `KeyError` at position `at`, after restoring the modules before it.
  */
  datatype ResetOutcome =
    | Restored(mods: seq<Module>)
    | MissingKey(mods: seq<Module>, at: nat, key: string)

  /**
    `reset_forward`: walks the modules in order and sets each forward to its cached entry.
    It completes exactly when every module name is in the cache; otherwise it raises at
    the first unknown name, leaving the earlier modules restored and the rest untouched.
  */
  function ResetForward(mods: seq<Module>, cache: map<string, FnId>): (r: ResetOutcome)
    ensures SameNames(mods, r.mods)
    ensures r.Restored? <==> forall i :: 0 <= i < |mods| ==> mods[i].name in cache
    ensures r.Restored? ==> forall i :: 0 <= i < |mods| ==> r.mods[i].forward == cache[mods[i].name]
    ensures r.MissingKey? ==>
      && r.at < |mods|
      && r.key == mods[r.at].name && r.key !in cache
      && (forall i :: 0 <= i < r.at ==> mods[i].name in cache && r.mods[i].forward == cache[mods[i].name])
      && (forall i :: r.at <= i < |mods| ==> r.mods[i] == mods[i])
  {
    var k := FirstUncached(mods, cache);
    var ms := seq(|mods|, i requires 0 <= i < |mods| =>
      if i < k then Module(mods[i].name, cache[mods[i].name]) else mods[i]);
    if k == |mods| then Restored(ms) else MissingKey(ms, k, mods[k].name)
  }

  /** The position where `reset_forward`'s loop raises: the first uncached name, or the end. */
  function FirstUncached(mods: seq<Module>, cache: map<string, FnId>): (k: nat)
    ensures k <= |mods|
    ensures forall i :: 0 <= i < k ==> mods[i].name in cache
    ensures k < |mods| ==> mods[k].name !in cache
    decreases |mods|
  {
    if |mods| == 0 then 0
    else if mods[0].name !in cache then 0
    else
      var k := FirstUncached(mods[1..], cache);
      assert forall i :: 1 <= i < k + 1 ==> mods[i] == mods[1..][i - 1];
      k + 1
  }

  lemma SameNamesSameSet(a: seq<Module>, b: seq<Module>)
    requires SameNames(a, b)
    ensures Names(a) == Names(b)
  {
    forall n | n in Names(a) ensures n in Names(b) {
      var k :| 0 <= k < |a| && a[k].name == n;
      assert b[k] in b;
    }
    forall n | n in Names(b) ensures n in Names(a) {
      var k :| 0 <= k < |b| && b[k].name == n;
      assert a[k] in a;
    }
  }

  /** With distinct names, the snapshot maps each module's name to its own forward. */
  lemma CacheOfDistinct(mods: seq<Module>)
    requires DistinctNames(mods)
    ensures forall i :: 0 <= i < |mods| ==> CacheForwards(mods)[mods[i].name] == mods[i].forward
  {
    forall i | 0 <= i < |mods|
      ensures CacheForwards(mods)[mods[i].name] == mods[i].forward
    {
      assert forall j :: i < j < |mods| ==> mods[j].name != mods[i].name;
    }
  }

  /**
    Restoration goes back to the snapshot, not to the previous state: whatever overwrites
    happened since `cache_forwards`, `reset_forward` gives back the cached table.
  */
  lemma {:induction false} RestoreAfterOverwrites(mods: seq<Module>, ops: seq<(string, FnId)>)
    requires DistinctNames(mods)
    ensures ResetForward(Overwrite(mods, ops), CacheForwards(mods)) == Restored(mods)
  {
    var now := Overwrite(mods, ops);
    var cache := CacheForwards(mods);
    SameNamesSameSet(mods, now);
    CacheOfDistinct(mods);
    var r := ResetForward(now, cache);
    assert r.Restored?;
    forall i | 0 <= i < |mods|
      ensures r.mods[i] == mods[i]
    {
      assert r.mods[i].name == now[i].name == mods[i].name;
      assert r.mods[i].forward == cache[now[i].name] == mods[i].forward;
    }
    assert r.mods == mods;
  }

  /** The reset loop stops at the same position on any two tables with the same names. */
  lemma {:induction false} FirstUncachedSameNames(a: seq<Module>, b: seq<Module>, cache: map<string, FnId>)
    requires SameNames(a, b)
    ensures FirstUncached(a, cache) == FirstUncached(b, cache)
    decreases |a|
  {
    if |a| != 0 && a[0].name in cache {
      assert SameNames(a[1..], b[1..]);
      FirstUncachedSameNames(a[1..], b[1..], cache);
    }
  }

  /**
    Resetting twice is the same as resetting once, whether or not the first reset raises:
    a second reset stops at the same uncached name and leaves the same partly restored table.
  */
  lemma ResetIdempotent(mods: seq<Module>, cache: map<string, FnId>)
    ensures ResetForward(ResetForward(mods, cache).mods, cache) == ResetForward(mods, cache)
  {
    var first := ResetForward(mods, cache);
    var once := first.mods;
    FirstUncachedSameNames(mods, once, cache);
    var second := ResetForward(once, cache);
    assert forall i :: 0 <= i < |mods| ==> second.mods[i] == once[i];
    assert second.mods == once;
  }

  /**
    The module-name set must not grow after caching: a module added since then makes
    `reset_forward` raise at that module, after restoring all the cached ones before it.
  */
  lemma AddedModuleRaises(mods: seq<Module>, extra: Module)
    requires extra.name !in Names(mods)
    ensures var r := ResetForward(mods + [extra], CacheForwards(mods));
            r.MissingKey? && r.key == extra.name && r.at == |mods|
  {
    var all := mods + [extra];
    assert extra in all;
    var r := ResetForward(all, CacheForwards(mods));
    assert r.MissingKey?;
  }
}

=== FILE: handles.dfy ===
/**
  `ModelandTokenizer` as a whole: construction once the model is loaded, the `lm_head`
  property and `LMHead.forward` as the composition of the final norm and the head.
*/
module Handles {
  import opened Wrappers
  import opened Descriptor
  import opened ConfigParsing
  import opened Forwards

  /** The part of `ModelandTokenizer.__init__` after loading: `parse_config`, then `cache_forwards`. */
  function NewHandle(model: Model, tokenizer: Tokenizer, name: string): (r: Result<Handle, Error>)
    ensures r.Success? <==> ParseConfig(model, name).Success?
    ensures r.Success? ==>
      && r.value.model == model
      && r.value.meta == ParseConfig(model, name).value
      && r.value.tokenizer == tokenizer
      && r.value.name == name
      && r.value.moduleForwards.Keys == Names(model.modules)
    ensures r.Success? ==> forall i :: (
      && 0 <= i < |model.modules|
      && (forall j :: i < j < |model.modules| ==> model.modules[j].name != model.modules[i].name)) ==>
      r.value.moduleForwards[model.modules[i].name] == model.modules[i].forward
  {
    var meta :- ParseConfig(model, name);
    Success(Handle(model, tokenizer, name, meta, CacheForwards(model.modules)))
  }

  /**
    On a freshly built handle, any instrumentation followed by `reset_forward` leaves the
    model's modules exactly as they were at construction.
  */
  lemma SessionLeavesHandleUnchanged(model: Model, tokenizer: Tokenizer, name: string, ops: seq<(string, FnId)>)
    requires DistinctNames(model.modules)
    requires NewHandle(model, tokenizer, name).Success?
    ensures var h := NewHandle(model, tokenizer, name).value;
            ResetForward(Overwrite(h.model.modules, ops), h.moduleForwards) == Restored(model.modules)
  {
    RestoreAfterOverwrites(model.modules, ops);
  }

  /** Looking a submodule up by its dotted name; no name (`None`) matches nothing. */
  function GetModule(mods: seq<Module>, path: Option<string>): (r: Result<string, Error>)
    ensures r.Success? <==> path.Some? && path.value in Names(mods)
    ensures r.Success? ==> r.value == path.value
    ensures r.Failure? ==> r.error == ModuleNotFound(path)
  {
    if path.Some? && path.value in Names(mods) then Success(path.value) else Failure(ModuleNotFound(path))
  }

  /** An `LMHead`: the final norm and the head, identified by their module paths. */
  datatype LMHead = LMHead(finalLayerNorm: string, lmHead: string)

  /**
    The `lm_head` property: the head is looked up first, then the final norm; either
    name being unset or naming no module raises.
  */
  function LmHead(h: Handle): (r: Result<LMHead, Error>)
    ensures r.Success? <==>
      && h.meta.lmHeadName.Some? && h.meta.lmHeadName.value in Names(h.model.modules)
      && h.meta.finalLayerNormName.Some? && h.meta.finalLayerNormName.value in Names(h.model.modules)
    ensures r.Success? ==> r.value == LMHead(h.meta.finalLayerNormName.value, h.meta.lmHeadName.value)
    ensures r.Failure? && !(h.meta.lmHeadName.Some? && h.meta.lmHeadName.value in Names(h.model.modules)) ==>
      r.error == ModuleNotFound(h.meta.lmHeadName)
    ensures r.Failure? && h.meta.lmHeadName.Some? && h.meta.lmHeadName.value in Names(h.model.modules) ==>
      r.error == ModuleNotFound(h.meta.finalLayerNormName)
  {
    var head := GetModule(h.model.modules, h.meta.lmHeadName);
    var norm := GetModule(h.model.modules, h.meta.finalLayerNormName);
    if head.Failure? then Failure(head.error)
    else if norm.Failure? then Failure(norm.error)
    else Success(LMHead(norm.value, head.value))
  }

  /** The current forward of the first module called `name`. */
  function CurrentForward(mods: seq<Module>, name: string): (r: Option<FnId>)
    ensures r.Some? <==> name in Names(mods)
    ensures r.Some? ==> exists i :: 0 <= i < |mods| && mods[i].name == name && mods[i].forward == r.value
    decreases |mods|
  {
    if |mods| == 0 then None
    else if mods[0].name == name then Some(mods[0].forward)
    else
      assert forall m :: m in mods ==> m == mods[0] || m in mods[1..];
      var r := CurrentForward(mods[1..], name);
      if r.Some? then
        ghost var i :| 0 <= i < |mods[1..]| && mods[1..][i].name == name && mods[1..][i].forward == r.value;
        assert mods[i + 1] == mods[1..][i];
        r
      else r
  }

  /**
    `LMHead.forward`: the final norm, then the head, each through whatever forward its
    module currently has; `run(f, x)` applies forward `f`. An `LMHead` holds the module
    objects `lm_head` found, so both are present in the table.
  */
  function HeadForward<T>(head: LMHead, mods: seq<Module>, run: (FnId, T) -> T, x: T): (r: T)
    requires head.finalLayerNorm in Names(mods) && head.lmHead in Names(mods)
    ensures exists i, j :: (
      && 0 <= i < |mods| && 0 <= j < |mods|
      && mods[i].name == head.finalLayerNorm && mods[j].name == head.lmHead
      && r == run(mods[j].forward, run(mods[i].forward, x)))
  {
    var norm := CurrentForward(mods, head.finalLayerNorm).value;
    var proj := CurrentForward(mods, head.lmHead).value;
    run(proj, run(norm, x))
  }

  /**
    The head `lm_head` returns stays applicable however the forwards are overwritten
    afterwards: instrumentation never removes a module name.
  */
  lemma HeadSurvivesInstrumentation(h: Handle, ops: seq<(string, FnId)>)
    requires LmHead(h).Success?
    ensures LmHead(h).value.finalLayerNorm in Names(Overwrite(h.model.modules, ops))
    ensures LmHead(h).value.lmHead in Names(Overwrite(h.model.modules, ops))
  {
    SameNamesSameSet(h.model.modules, Overwrite(h.model.modules, ops));
  }

  /** After `reset_forward`, the head composes the cached norm and head forwards. */
  lemma HeadForwardAfterReset<T>(head: LMHead, mods: seq<Module>, cache: map<string, FnId>, run: (FnId, T) -> T, x: T)
    requires ResetForward(mods, cache).Restored?
    requires head.finalLayerNorm in Names(mods) && head.lmHead in Names(mods)
    ensures head.finalLayerNorm in Names(ResetForward(mods, cache).mods)
    ensures head.lmHead in Names(ResetForward(mods, cache).mods)
    ensures head.finalLayerNorm in cache && head.lmHead in cache
    ensures HeadForward(head, ResetForward(mods, cache).mods, run, x) ==
      run(cache[head.lmHead], run(cache[head.finalLayerNorm], x))
  {
    var ms := ResetForward(mods, cache).mods;
    SameNamesSameSet(mods, ms);
    var fn := CurrentForward(ms, head.finalLayerNorm).value;
    var i :| 0 <= i < |ms| && ms[i].name == head.finalLayerNorm && ms[i].forward == fn;
    var fh := CurrentForward(ms, head.lmHead).value;
    var j :| 0 <= j < |ms| && ms[j].name == head.lmHead && ms[j].forward == fh;
  }

  /**
    `lm_head` reads the names `parse_config` set: a model with no `parse_config` branch has
    no head name and raises on first use; a recognised one has both names, so the property
    succeeds exactly when they name modules.
  */
  lemma HeadNamesFromConfig(model: Model, tokenizer: Tokenizer, name: string)
    requires NewHandle(model, tokenizer, name).Success?
    ensures var h := NewHandle(model, tokenizer, name).value;
      !Recognised(model, name) ==> LmHead(h) == Failure(ModuleNotFound(None))
    ensures var h := NewHandle(model, tokenizer, name).value;
      Recognised(model, name) ==>
        && h.meta.lmHeadName.Some? && h.meta.finalLayerNormName.Some?
        && (LmHead(h).Success? <==>
              h.meta.lmHeadName.value in Names(model.modules)
              && h.meta.finalLayerNormName.value in Names(model.modules))
  {
  }
}

=== FILE: helpers.dfy ===
/** The small helpers: `maybe_prefix_eos`, `untuple` and the byte count of `get_model_size`. */
module Helpers {
  import opened Wrappers
  import opened Strings
  import opened Descriptor

  /**
    `maybe_prefix_eos`: a tokenizer without an `eos_token` attribute leaves the prompt
    alone; otherwise a prompt not already starting with the EOS token gets the token and
    a space in front. An `eos_token` of `None` makes `startswith` raise.
  */
  function MaybePrefixEos(t: TokenizerSubject, prompt: string): (r: Result<string, Error>)
    ensures UnwrapTokenizer(t).eos.NoEosAttribute? ==> r == Success(prompt)
    ensures UnwrapTokenizer(t).eos.EosIsNone? ==> r == Failure(EosTokenIsNone)
    ensures UnwrapTokenizer(t).eos.Eos? ==>
      var eos := UnwrapTokenizer(t).eos.token;
      && r.Success?
      && StartsWith(r.value, eos)
      && (StartsWith(prompt, eos) ==> r.value == prompt)
      && (!StartsWith(prompt, eos) ==> r.value == eos + " " + prompt)
  {
    match UnwrapTokenizer(t).eos
    case NoEosAttribute => Success(prompt)
    case EosIsNone => Failure(EosTokenIsNone)
    case Eos(eos) =>
      if StartsWith(prompt, eos) then Success(prompt)
      else
        assert (eos + " " + prompt)[..|eos|] == eos;
        Success(eos + " " + prompt)
  }

  /** Prefixing is idempotent: a second call changes nothing. */
  lemma MaybePrefixEosIdempotent(t: TokenizerSubject, prompt: string)
    requires MaybePrefixEos(t, prompt).Success?
    ensures MaybePrefixEos(t, MaybePrefixEos(t, prompt).value) == MaybePrefixEos(t, prompt)
  {
  }

  /** A Python value as `untuple` sees it: a tuple of values, or anything else. */
  datatype PyValue = Tuple(items: seq<PyValue>) | Atom(id: nat)

  /** `untuple`: the first element of a tuple, anything else unchanged; `()` raises. */
  function Untuple(v: PyValue): (r: Result<PyValue, Error>)
    ensures v.Atom? ==> r == Success(v)
    ensures v.Tuple? && 0 < |v.items| ==> r == Success(v.items[0])
    ensures v.Tuple? && |v.items| == 0 ==> r == Failure(EmptyTuple)
  {
    match v
    case Atom(_) => Success(v)
    case Tuple(items) => if |items| == 0 then Failure(EmptyTuple) else Success(items[0])
  }

  /** A parameter or buffer tensor: its element count and the byte size of one element. */
  datatype Tensor = Tensor(nelement: nat, elementSize: nat)

  /** The total byte size of a list of tensors. */
  function Bytes(ts: seq<Tensor>): nat {
    if |ts| == 0 then 0 else Bytes(ts[..|ts| - 1]) + ts[|ts| - 1].nelement * ts[|ts| - 1].elementSize
  }

  /** Splitting a list of tensors splits its byte total. */
  lemma {:induction false} BytesAppend(a: seq<Tensor>, b: seq<Tensor>)
    ensures Bytes(a + b) == Bytes(a) + Bytes(b)
    decreases |b|
  {
    if |b| == 0 {
      assert a + b == a;
    } else {
      var init := b[..|b| - 1];
      assert (a + b)[..|a + b| - 1] == a + init;
      BytesAppend(a, init);
    }
  }

  /** The units `get_model_size` accepts. */
  datatype SizeUnit = B | KB | MB | GB

  /** The unit table of `get_model_size`: 1, 2^10, 2^20 and 2^30 bytes. */
  function Denominator(u: SizeUnit): (d: nat)
    ensures 0 < d
  {
    match u
    case B => 1
    case KB => 1024
    case MB => 1024 * 1024
    case GB => 1024 * 1024 * 1024
  }

  /**
    The byte count behind `get_model_size`: the two accumulation loops over parameters
    and buffers, and the denominator for the unit. The size is `total / denom`.
  */
  method ModelSize(params: seq<Tensor>, buffers: seq<Tensor>, unit: SizeUnit) returns (total: nat, denom: nat)
    ensures total == Bytes(params + buffers)
    ensures denom == Denominator(unit)
  {
    var paramSize := 0;
    var i := 0;
    while i < |params|
      invariant 0 <= i <= |params|
      invariant paramSize == Bytes(params[..i])
    {
      assert params[..i + 1][..i] == params[..i];
      paramSize := paramSize + params[i].nelement * params[i].elementSize;
      i := i + 1;
    }
    var bufferSize := 0;
    var j := 0;
    while j < |buffers|
      invariant 0 <= j <= |buffers|
      invariant bufferSize == Bytes(buffers[..j])
    {
      assert buffers[..j + 1][..j] == buffers[..j];
      bufferSize := bufferSize + buffers[j].nelement * buffers[j].elementSize;
      j := j + 1;
    }
    assert params[..i] == params && buffers[..j] == buffers;
    BytesAppend(params, buffers);
    total := paramSize + bufferSize;
    denom := Denominator(unit);
  }
}

=== FILE: paths.dfy ===
/**
  The path resolvers: `determine_embedding_layer_path`, `determine_final_layer_norm_path`,
  `determine_lm_head_path`, `determine_layers` and `determine_layer_paths`. Paths are the
  dotted submodule names of the model's module tree.
*/
module Paths {
  import opened Wrappers
  import opened Strings
  import opened Descriptor
  import opened Classify

  /** The branch the three component resolvers take. */
  datatype Family = GptFamily | LlamaFamily | MambaFamily(hasBackbone: bool) | PythiaFamily

  /**
    The first-match order shared by the three component resolvers: the GPT classifier,
    then the Llama class, then the Mamba class, then the pythia classifier.
  */
  function ResolverFamily(m: Model): Result<Family, Error> {
    if IsGpt(m) then Success(GptFamily)
    else if m.cls.LlamaForCausalLM? then Success(LlamaFamily)
    else if IsMamba(m) then Success(MambaFamily(m.backbone.Some?))
    else if IsPythia(m) then Success(PythiaFamily)
    else Failure(UnknownModelType(ClassName(m.cls)))
  }

  /** The objects some branch of the component resolvers accepts. */
  predicate Supported(m: Model) {
    IsGpt(m) || m.cls.LlamaForCausalLM? || IsMamba(m) || IsPythia(m)
  }

  function BackbonePrefix(hasBackbone: bool): string {
    if hasBackbone then "backbone." else ""
  }

  /** `determine_embedding_layer_path`. */
  function EmbeddingLayerPath(s: Subject): (r: Result<string, Error>)
    ensures r.Success? <==> UnwrapModel(s).Success? && Supported(Target(s))
    ensures r.Failure? && UnwrapModel(s).Success? ==> r.error == UnknownModelType(ClassName(Target(s).cls))
  {
    var m :- UnwrapModel(s);
    var f :- ResolverFamily(m);
    Success(
      match f
      case GptFamily => "transformer.wte"
      case LlamaFamily => "model.embed_tokens"
      case MambaFamily(b) => BackbonePrefix(b) + "embedding"
      case PythiaFamily => "gpt_neox.embed_in")
  }

  /** `determine_final_layer_norm_path`. */
  function FinalLayerNormPath(s: Subject): (r: Result<string, Error>)
    ensures r.Success? <==> UnwrapModel(s).Success? && Supported(Target(s))
    ensures r.Failure? && UnwrapModel(s).Success? ==> r.error == UnknownModelType(ClassName(Target(s).cls))
  {
    var m :- UnwrapModel(s);
    var f :- ResolverFamily(m);
    Success(
      match f
      case GptFamily => "transformer.ln_f"
      case LlamaFamily => "model.norm"
      case MambaFamily(b) => BackbonePrefix(b) + "norm_f"
      case PythiaFamily => "gpt_neox.final_layer_norm")
  }

  /** `determine_lm_head_path`. */
  function LmHeadPath(s: Subject): (r: Result<string, Error>)
    ensures r.Success? <==> UnwrapModel(s).Success? && Supported(Target(s))
    ensures r.Failure? && UnwrapModel(s).Success? ==> r.error == UnknownModelType(ClassName(Target(s).cls))
  {
    var m :- UnwrapModel(s);
    var f :- ResolverFamily(m);
    Success(
      match f
      case GptFamily => "lm_head"
      case LlamaFamily => "model.lm_head"
      case MambaFamily(_) => "lm_head"
      case PythiaFamily => "embed_out")
  }

  /** The three component resolvers raise for exactly the same arguments. */
  lemma ResolversFailTogether(s: Subject)
    ensures EmbeddingLayerPath(s).Success? == FinalLayerNormPath(s).Success?
    ensures FinalLayerNormPath(s).Success? == LmHeadPath(s).Success?
  {
  }

  /**
    Which branch produced a given embedding path: each constant is returned exactly for
    the objects that reach its branch in the first-match order.
  */
  lemma EmbeddingPathBranches(m: Model)
    requires IsTorchModule(m.cls)
    ensures EmbeddingLayerPath(OfObject(m)) == Success("transformer.wte") <==> IsGpt(m)
    ensures EmbeddingLayerPath(OfObject(m)) == Success("model.embed_tokens") <==>
      !IsGpt(m) && m.cls.LlamaForCausalLM?
    ensures EmbeddingLayerPath(OfObject(m)) == Success("gpt_neox.embed_in") <==>
      IsPythia(m) && !m.cls.LlamaForCausalLM? && !IsMamba(m)
    ensures EmbeddingLayerPath(OfObject(m)) == Success(BackbonePrefix(m.backbone.Some?) + "embedding") <==>
      IsMamba(m)
  {
    assert ("backbone." + "embedding")[0] != "model.embed_tokens"[0];
    assert ("backbone." + "embedding")[0] != "transformer.wte"[0];
    assert ("backbone." + "embedding")[0] != "gpt_neox.embed_in"[0];
    assert "embedding"[0] != "model.embed_tokens"[0];
    assert "embedding"[0] != "transformer.wte"[0];
    assert "embedding"[0] != "gpt_neox.embed_in"[0];
  }

  /** The same for the final-norm path. */
  lemma FinalNormPathBranches(m: Model)
    requires IsTorchModule(m.cls)
    ensures FinalLayerNormPath(OfObject(m)) == Success("transformer.ln_f") <==> IsGpt(m)
    ensures FinalLayerNormPath(OfObject(m)) == Success("model.norm") <==>
      !IsGpt(m) && m.cls.LlamaForCausalLM?
    ensures FinalLayerNormPath(OfObject(m)) == Success("gpt_neox.final_layer_norm") <==>
      IsPythia(m) && !m.cls.LlamaForCausalLM? && !IsMamba(m)
    ensures FinalLayerNormPath(OfObject(m)) == Success(BackbonePrefix(m.backbone.Some?) + "norm_f") <==>
      IsMamba(m)
  {
    assert ("backbone." + "norm_f")[0] != "model.norm"[0];
    assert ("backbone." + "norm_f")[0] != "transformer.ln_f"[0];
    assert ("backbone." + "norm_f")[0] != "gpt_neox.final_layer_norm"[0];
    assert "norm_f"[0] != "model.norm"[0];
    assert "norm_f"[0] != "transformer.ln_f"[0];
    assert "norm_f"[0] != "gpt_neox.final_layer_norm"[0];
  }

  /** The head path `"lm_head"` is shared by the GPT and the Mamba branches. */
  lemma HeadPathBranches(m: Model)
    requires IsTorchModule(m.cls)
    ensures LmHeadPath(OfObject(m)) == Success("lm_head") <==> IsGpt(m) || IsMamba(m)
    ensures LmHeadPath(OfObject(m)) == Success("model.lm_head") <==>
      !IsGpt(m) && m.cls.LlamaForCausalLM?
    ensures LmHeadPath(OfObject(m)) == Success("embed_out") <==>
      IsPythia(m) && !m.cls.LlamaForCausalLM? && !IsMamba(m)
  {
  }

  /**
    A Mamba model's embedding and final-norm paths with a `backbone` are those without it
    behind the prefix `"backbone."`; its head path does not depend on the backbone.
  */
  lemma MambaBackbonePrefix(m: Model, b: Backbone)
    requires IsMamba(m)
    ensures var with := OfObject(m.(backbone := Some(b)));
            var without := OfObject(m.(backbone := None));
            && EmbeddingLayerPath(with).value == "backbone." + EmbeddingLayerPath(without).value
            && FinalLayerNormPath(with).value == "backbone." + FinalLayerNormPath(without).value
            && LmHeadPath(with) == LmHeadPath(without) == Success("lm_head")
  {
    var with := m.(backbone := Some(b));
    var without := m.(backbone := None);
    assert !IsGpt(with) && !IsGpt(without);
    assert ResolverFamily(with) == Success(MambaFamily(true));
    assert ResolverFamily(without) == Success(MambaFamily(false));
    assert "" + "embedding" == "embedding" && "" + "norm_f" == "norm_f";
  }

  /**
    The number of layers `determine_layers` counts: `num_hidden_layers` for GPTNeoX and
    Llama, the backbone's or else the model's own `layers` for Mamba, `n_layer` otherwise.
  */
  function LayerCount(m: Model): Result<nat, Error> {
    if m.cls.GPTNeoXForCausalLM? || m.cls.LlamaForCausalLM? then
      var c :- ConfigOf(m);
      Required(c.numHiddenLayers, "num_hidden_layers")
    else if m.cls.Mamba? then
      if m.backbone.Some? then Success(m.backbone.value.layerCount)
      else Required(m.layers, "layers")
    else
      var c :- ConfigOf(m);
      Required(c.nLayer, "n_layer")
  }

  /** `determine_layers`: the tuple `0, 1, ..., n_layer - 1`. */
  function Layers(s: Subject): (r: Result<seq<int>, Error>)
    ensures r.Success? <==>
      UnwrapModel(s).Success? && IsTorchModule(Target(s).cls) && LayerCount(Target(s)).Success?
    ensures r.Failure? && UnwrapModel(s).Success? && !IsTorchModule(Target(s).cls) ==> r.error == NotAModel
    ensures r.Success? ==> |r.value| == LayerCount(Target(s)).value
    ensures r.Success? ==> forall i :: 0 <= i < |r.value| ==> r.value[i] == i
  {
    var m :- UnwrapModel(s);
    if !IsTorchModule(m.cls) then Failure(NotAModel)
    else
      var n :- LayerCount(m);
      Success(seq(n, i => i))
  }

  /** A layer reference: a block index (negative counts from the end), `"emb"` or `"ln_f"`. */
  datatype LayerRef = Index(i: int) | Emb | LnF

  /** The per-block path template of `determine_layer_paths`, chosen by class alone. */
  function BlockTemplate(m: Model): Template {
    if m.cls.GPTNeoXForCausalLM? then Template("gpt_neox.layers.", "")
    else if m.cls.LlamaForCausalLM? then Template("model.layers.", "")
    else if m.cls.Mamba? then Template(BackbonePrefix(m.backbone.Some?) + "layers.", "")
    else Template("transformer.h.", "")
  }

  /**
    The path of one reference inside the loop of `determine_layer_paths`. A negative
    index is shifted by the layer count once; no index is ever range-checked.
  */
  function PathOf(m: Model, ref: LayerRef): Result<string, Error> {
    match ref
    case Emb => EmbeddingLayerPath(OfObject(m))
    case LnF => FinalLayerNormPath(OfObject(m))
    case Index(i) =>
      if i < 0 then
        var n :- LayerCount(m);
        Success(Format(BlockTemplate(m), n + i))
      else
        Success(Format(BlockTemplate(m), i))
  }

  predicate AllResolve(m: Model, refs: seq<LayerRef>) {
    forall i :: 0 <= i < |refs| ==> PathOf(m, refs[i]).Success?
  }

  /** Position `i` holds the first reference whose resolution raises. */
  predicate FailsFirstAt(m: Model, refs: seq<LayerRef>, i: nat) {
    && i < |refs|
    && PathOf(m, refs[i]).Failure?
    && forall j :: 0 <= j < i ==> PathOf(m, refs[j]).Success?
  }

  /** The loop of `determine_layer_paths`: fills the dict in order, stopping at the first error. */
  function Collect(m: Model, refs: seq<LayerRef>, acc: map<LayerRef, string>): (r: Result<map<LayerRef, string>, Error>)
    ensures r.Success? <==> AllResolve(m, refs)
    ensures r.Success? ==> r.value.Keys == acc.Keys + (set k | k in refs)
    ensures r.Success? ==> forall k :: k in refs ==> r.value[k] == PathOf(m, k).value
    ensures r.Success? ==> forall k :: k in acc && k !in refs ==> r.value[k] == acc[k]
    ensures r.Failure? ==>
      exists i: nat :: FailsFirstAt(m, refs, i) && r.error == PathOf(m, refs[i]).error
    decreases |refs|
  {
    if |refs| == 0 then Success(acc)
    else
      var head := PathOf(m, refs[0]);
      if head.Failure? then
        assert FailsFirstAt(m, refs, 0);
        Failure(head.error)
      else
        var rest := Collect(m, refs[1..], acc[refs[0] := head.value]);
        RefsCons(m, refs);
        if rest.Failure? then
          CollectFailureShift(m, refs, rest.error);
          rest
        else
          rest
  }

  lemma RefsCons(m: Model, refs: seq<LayerRef>)
    requires 0 < |refs|
    ensures forall k :: k in refs <==> k == refs[0] || k in refs[1..]
    ensures AllResolve(m, refs) <==> PathOf(m, refs[0]).Success? && AllResolve(m, refs[1..])
  {
    assert forall i :: 1 <= i < |refs| ==> refs[i] == refs[1..][i - 1];
  }

  lemma CollectFailureShift(m: Model, refs: seq<LayerRef>, e: Error)
    requires 0 < |refs| && PathOf(m, refs[0]).Success?
    requires exists i: nat :: FailsFirstAt(m, refs[1..], i) && e == PathOf(m, refs[1..][i]).error
    ensures exists i: nat :: FailsFirstAt(m, refs, i) && e == PathOf(m, refs[i]).error
  {
    var i: nat :| FailsFirstAt(m, refs[1..], i) && e == PathOf(m, refs[1..][i]).error;
    assert forall j :: 1 <= j < i + 1 ==> PathOf(m, refs[j]) == PathOf(m, refs[1..][j - 1]);
    assert FailsFirstAt(m, refs, i + 1);
  }

  /** The references a call covers: the given ones, or every index from `determine_layers`. */
  function RequestedRefs(m: Model, layers: Option<seq<LayerRef>>): (r: Result<seq<LayerRef>, Error>)
    ensures layers.Some? ==> r == Success(layers.value)
    ensures layers.None? ==> (r.Success? <==> IsTorchModule(m.cls) && LayerCount(m).Success?)
    ensures layers.None? && r.Success? ==>
      |r.value| == LayerCount(m).value && forall i :: 0 <= i < |r.value| ==> r.value[i] == Index(i)
  {
    if layers.Some? then Success(layers.value)
    else
      var ls :- Layers(OfObject(m));
      Success(seq(|ls|, i requires 0 <= i < |ls| => Index(ls[i])))
  }

  /** The two return shapes of `determine_layer_paths`. */
  datatype LayerPathMap = AsDict(paths: map<LayerRef, string>) | AsTuple(ordered: seq<string>)

  /**
    `determine_layer_paths`: with `return_dict` a dict whose keys are exactly the distinct
    requested references, otherwise a tuple in request order with duplicates kept.
  */
  function LayerPaths(s: Subject, layers: Option<seq<LayerRef>>, returnDict: bool): (r: Result<LayerPathMap, Error>)
    ensures r.Success? <==>
      && UnwrapModel(s).Success?
      && RequestedRefs(Target(s), layers).Success?
      && IsTorchModule(Target(s).cls)
      && AllResolve(Target(s), RequestedRefs(Target(s), layers).value)
    ensures r.Success? && returnDict ==>
      var refs := RequestedRefs(Target(s), layers).value;
      && r.value.AsDict?
      && r.value.paths.Keys == (set k | k in refs)
      && forall k :: k in refs ==> r.value.paths[k] == PathOf(Target(s), k).value
    ensures r.Success? && !returnDict ==>
      var refs := RequestedRefs(Target(s), layers).value;
      && r.value.AsTuple?
      && |r.value.ordered| == |refs|
      && forall i :: 0 <= i < |refs| ==> r.value.ordered[i] == PathOf(Target(s), refs[i]).value
    ensures (r.Failure? && UnwrapModel(s).Success? && RequestedRefs(Target(s), layers).Success?
             && !IsTorchModule(Target(s).cls)) ==> r.error == NotAModel
    ensures (r.Failure? && UnwrapModel(s).Success? && RequestedRefs(Target(s), layers).Success?
             && IsTorchModule(Target(s).cls)) ==>
      var refs := RequestedRefs(Target(s), layers).value;
      exists i: nat :: FailsFirstAt(Target(s), refs, i) && r.error == PathOf(Target(s), refs[i]).error
  {
    var m :- UnwrapModel(s);
    var refs :- RequestedRefs(m, layers);
    if !IsTorchModule(m.cls) then Failure(NotAModel)
    else
      var d :- Collect(m, refs, map[]);
      if returnDict then Success(AsDict(d))
      else Success(AsTuple(seq(|refs|, i requires 0 <= i < |refs| => d[refs[i]])))
  }

  /**
    A handle whose model is not a torch module is stopped by the `isinstance` assertion;
    without an explicit list, `determine_layers` unwraps the bare object again and raises
    `ValueError` first.
  */
  lemma NonModuleHandleStops(h: Handle, refs: seq<LayerRef>, returnDict: bool)
    requires !IsTorchModule(h.model.cls)
    ensures Layers(OfHandle(h)) == Failure(NotAModel)
    ensures LayerPaths(OfHandle(h), Some(refs), returnDict) == Failure(NotAModel)
    ensures LayerPaths(OfHandle(h), None, returnDict) == Failure(NotAModule)
  {
  }

  /**
    `unwrap_model` makes a handle and its model interchangeable: for a handle whose model
    is a torch module, every resolver gives the handle exactly the result it gives the
    model passed on its own.
  */
  lemma HandleResolvesAsItsModel(h: Handle, layers: Option<seq<LayerRef>>, returnDict: bool)
    requires IsTorchModule(h.model.cls)
    ensures UnwrapModel(OfHandle(h)) == UnwrapModel(OfObject(h.model)) == Success(h.model)
    ensures EmbeddingLayerPath(OfHandle(h)) == EmbeddingLayerPath(OfObject(h.model))
    ensures FinalLayerNormPath(OfHandle(h)) == FinalLayerNormPath(OfObject(h.model))
    ensures LmHeadPath(OfHandle(h)) == LmHeadPath(OfObject(h.model))
    ensures Layers(OfHandle(h)) == Layers(OfObject(h.model))
    ensures LayerPaths(OfHandle(h), layers, returnDict) == LayerPaths(OfObject(h.model), layers, returnDict)
  {
  }

  /** A negative index `i` resolves to block `n_layer + i`; the shifted index is not checked. */
  lemma NegativeIndex(m: Model, i: int)
    requires i < 0
    ensures PathOf(m, Index(i)).Success? <==> LayerCount(m).Success?
    ensures LayerCount(m).Success? ==>
      PathOf(m, Index(i)) == Success(Format(BlockTemplate(m), LayerCount(m).value + i))
    ensures LayerCount(m).Success? && -i <= LayerCount(m).value ==>
      PathOf(m, Index(i)) == PathOf(m, Index(LayerCount(m).value + i))
    ensures LayerCount(m).Success? && LayerCount(m).value < -i ==>
      PathOf(m, Index(i)).value[|BlockTemplate(m).prefix|] == '-'
  {
  }

  /**
    A non-negative index is never rejected, however large; classes without a template of
    their own fall through to `"transformer.h.{i}"`.
  */
  lemma IndexNeverRangeChecked(m: Model, i: int)
    requires 0 <= i
    ensures PathOf(m, Index(i)) == Success(Format(BlockTemplate(m), i))
    ensures m.cls.OtherModule? ==> PathOf(m, Index(i)) == Success("transformer.h." + IntToString(i))
  {
    FormatWithoutSuffix("transformer.h.", i);
  }

  /** `"emb"` and `"ln_f"` resolve, wherever they appear, to the component resolvers' paths. */
  lemma SymbolicRefsUseResolvers(s: Subject, refs: seq<LayerRef>, i: nat)
    requires IsTorchModule(Target(s).cls) && AllResolve(Target(s), refs)
    requires i < |refs|
    ensures LayerPaths(s, Some(refs), false).Success?
    ensures refs[i] == Emb ==> LayerPaths(s, Some(refs), false).value.ordered[i] == EmbeddingLayerPath(s).value
    ensures refs[i] == LnF ==> LayerPaths(s, Some(refs), false).value.ordered[i] == FinalLayerNormPath(s).value
  {
    assert PathOf(Target(s), refs[i]).Success?;
  }

  /**
    Without an explicit list, resolution covers blocks `0 .. n_layer - 1` and yields
    `n_layer` pairwise-distinct paths; it succeeds exactly when the layer count can be read.
  */
  lemma {:induction false} AllLayersDistinct(s: Subject)
    ensures LayerPaths(s, None, false).Success? <==>
      IsTorchModule(Target(s).cls) && LayerCount(Target(s)).Success?
    ensures LayerPaths(s, None, false).Success? ==>
      var ps := LayerPaths(s, None, false).value.ordered;
      && |ps| == LayerCount(Target(s)).value
      && (forall i :: 0 <= i < |ps| ==> ps[i] == Format(BlockTemplate(Target(s)), i))
      && (forall i, j :: 0 <= i < j < |ps| ==> ps[i] != ps[j])
  {
    var m := Target(s);
    if IsTorchModule(m.cls) && LayerCount(m).Success? {
      assert UnwrapModel(s).Success?;
      var refs := RequestedRefs(m, None).value;
      forall i | 0 <= i < |refs|
        ensures PathOf(m, refs[i]) == Success(Format(BlockTemplate(m), i))
      {
        IndexNeverRangeChecked(m, i);
      }
      assert AllResolve(m, refs);
      var ps := LayerPaths(s, None, false).value.ordered;
      forall i, j | 0 <= i < j < |ps|
        ensures ps[i] != ps[j]
      {
        if ps[i] == ps[j] {
          FormatInjective(BlockTemplate(m), i, j);
        }
      }
    }
  }

  lemma TwelveBlockNames(m: Model)
    requires BlockTemplate(m) == Template("transformer.h.", "") && LayerCount(m) == Success(12)
    ensures PathOf(m, Index(0)) == Success("transformer.h.0")
    ensures PathOf(m, Index(-1)) == Success("transformer.h.11")
  {
    assert IntToString(0) == "0";
    assert NatToString(11) == NatToString(1) + [DigitChar(1)];
    assert IntToString(11) == "11";
    FormatWithoutSuffix("transformer.h.", 0);
    FormatWithoutSuffix("transformer.h.", 11);
    assert "transformer.h." + "0" == "transformer.h.0";
    assert "transformer.h." + "11" == "transformer.h.11";
  }

  /**
    The scenario of a GPT-2 model with `n_layer = 12`: `["emb", 0, -1, "ln_f"]` resolves in
    order to the embedding, block 0, block 11 and the final norm.
  */
  lemma GptScenario(m: Model)
    requires m.cls.GPT2LMHeadModel? && !IsPythia(m)
    requires m.config.Some? && m.config.value.nLayer == Some(12)
    ensures LayerPaths(OfObject(m), Some([Emb, Index(0), Index(-1), LnF]), false) ==
            Success(AsTuple(["transformer.wte", "transformer.h.0", "transformer.h.11", "transformer.ln_f"]))
  {
    var refs := [Emb, Index(0), Index(-1), LnF];
    var want := ["transformer.wte", "transformer.h.0", "transformer.h.11", "transformer.ln_f"];
    TwelveBlockNames(m);
    assert PathOf(m, refs[0]) == Success(want[0]);
    assert PathOf(m, refs[3]) == Success(want[3]);
    TupleFromPaths(OfObject(m), refs, want);
  }

  lemma TupleFromPaths(s: Subject, refs: seq<LayerRef>, want: seq<string>)
    requires IsTorchModule(Target(s).cls) && |want| == |refs|
    requires forall i :: 0 <= i < |refs| ==> PathOf(Target(s), refs[i]) == Success(want[i])
    ensures LayerPaths(s, Some(refs), false) == Success(AsTuple(want))
  {
    assert AllResolve(Target(s), refs);
    var r := LayerPaths(s, Some(refs), false);
    assert r.value.ordered == want;
  }

  /**
    The GPTNeoX class keeps its block template whether or not the name mentions pythia,
    while its embedding path follows the classifier: pythia models get `gpt_neox.embed_in`,
    all others the GPT branch's `transformer.wte`.
  */
  lemma NeoXPaths(m: Model, i: int)
    requires m.cls.GPTNeoXForCausalLM? && 0 <= i
    ensures PathOf(m, Index(i)) == Success("gpt_neox.layers." + IntToString(i))
    ensures IsPythia(m) ==> EmbeddingLayerPath(OfObject(m)) == Success("gpt_neox.embed_in")
    ensures !IsPythia(m) ==> EmbeddingLayerPath(OfObject(m)) == Success("transformer.wte")
  {
    FormatWithoutSuffix("gpt_neox.layers.", i);
  }

  /** A Mamba model is `is_mamba_fast` exactly when its paths carry the backbone prefix. */
  lemma MambaFastPaths(m: Model)
    requires IsMamba(m)
    ensures IsMambaFast(m) <==> EmbeddingLayerPath(OfObject(m)) == Success("backbone.embedding")
    ensures IsMambaFast(m) <==> PathOf(m, Index(0)) == Success("backbone.layers.0")
  {
    assert !IsGpt(m);
    assert ResolverFamily(m) == Success(MambaFamily(m.backbone.Some?));
    assert "backbone." + "embedding" == "backbone.embedding";
    assert IntToString(0) == "0";
    assert "backbone." + "layers." == "backbone.layers." && "" + "layers." == "layers.";
    assert PathOf(m, Index(0)) == Success(Format(BlockTemplate(m), 0));
    FormatWithoutSuffix("backbone.layers.", 0);
    FormatWithoutSuffix("layers.", 0);
    assert "backbone.layers." + "0" == "backbone.layers.0";
    assert |"layers." + "0"| != |"backbone.layers.0"|;
    assert ("" + "embedding") != "backbone.embedding";
  }
}

=== FILE: strings.dfy ===
/**
  String operations the classifiers and path builders rely on: lower-casing for the
  case-insensitive name tests, substring search (Python's `in` on strings), prefix
  tests (`str.startswith`), decimal rendering of integers (`str(i)` and
  `"{}".format(i)`) and one-placeholder format templates.
*/
module Strings {

  /** ASCII lower-casing of one character; every other character is left as is. */
  function LowerChar(c: char): char {
    if 'A' <= c <= 'Z' then (c as int + 32) as char else c
  }

  /** `s.lower()`, restricted to the ASCII letters. */
  function Lower(s: string): (r: string)
    ensures |r| == |s|
    ensures forall i :: 0 <= i < |s| ==> r[i] == LowerChar(s[i])
  {
    if |s| == 0 then "" else [LowerChar(s[0])] + Lower(s[1..])
  }

  /** `needle` occurs in `hay` starting at position `i`. */
  predicate OccursAt(needle: string, hay: string, i: nat) {
    i + |needle| <= |hay| && hay[i..i + |needle|] == needle
  }

  /** `needle` occurs as a contiguous block somewhere in `hay`. */
  ghost predicate Occurs(needle: string, hay: string) {
    exists i: nat :: OccursAt(needle, hay, i)
  }

  lemma OccursStep(needle: string, hay: string)
    requires |needle| <= |hay| && 0 < |hay|
    ensures Occurs(needle, hay) <==> (hay[..|needle|] == needle || Occurs(needle, hay[1..]))
  {
    if Occurs(needle, hay) && hay[..|needle|] != needle {
      var i: nat :| OccursAt(needle, hay, i);
      assert i != 0;
      assert hay[1..][i - 1..i - 1 + |needle|] == hay[i..i + |needle|];
      assert OccursAt(needle, hay[1..], i - 1);
    }
    if Occurs(needle, hay[1..]) {
      var j: nat :| OccursAt(needle, hay[1..], j);
      assert hay[j + 1..j + 1 + |needle|] == hay[1..][j..j + |needle|];
      assert OccursAt(needle, hay, j + 1);
    }
    if hay[..|needle|] == needle {
      assert OccursAt(needle, hay, 0);
    }
  }

  /** Python's `needle in hay` for strings (the empty needle occurs everywhere). */
  function Contains(hay: string, needle: string): (r: bool)
    ensures r <==> Occurs(needle, hay)
    decreases |hay|
  {
    if |needle| > |hay| then false
    else if |hay| == 0 then assert OccursAt(needle, hay, 0); true
    else
      OccursStep(needle, hay);
      if hay[..|needle|] == needle then true else Contains(hay[1..], needle)
  }

  /** Python's `s.startswith(prefix)`. */
  predicate StartsWith(s: string, prefix: string) {
    |prefix| <= |s| && s[..|prefix|] == prefix
  }

  predicate IsDigit(c: char) {
    '0' <= c <= '9'
  }

  function DigitChar(d: nat): (c: char)
    requires d < 10
    ensures IsDigit(c)
  {
    ('0' as int + d) as char
  }

  function DigitValue(c: char): int {
    c as int - '0' as int
  }

  /** Reads a string of decimal digits back as a number (most significant digit first). */
  function ParseNat(s: string): int {
    if |s| == 0 then 0 else ParseNat(s[..|s| - 1]) * 10 + DigitValue(s[|s| - 1])
  }

  /** Decimal rendering of a natural number, as `str(n)` produces it. */
  function NatToString(n: nat): (r: string)
    ensures 0 < |r|
    ensures forall i :: 0 <= i < |r| ==> IsDigit(r[i])
    ensures r[0] == '0' ==> n == 0 && r == "0"
    ensures ParseNat(r) == n
  {
    if n < 10 then
      assert ParseNat([DigitChar(n)]) == ParseNat([]) * 10 + n;
      [DigitChar(n)]
    else
      var high := NatToString(n / 10);
      var r := high + [DigitChar(n % 10)];
      assert r[..|r| - 1] == high;
      r
  }

  /** Reads an optionally `-`-signed decimal string back as an integer. */
  function ParseInt(s: string): int {
    if 0 < |s| && s[0] == '-' then -ParseNat(s[1..]) else ParseNat(s)
  }

  /** Decimal rendering of an integer, as `str(i)` and `"{}".format(i)` produce it. */
  function IntToString(i: int): (r: string)
    ensures 0 < |r|
    ensures ParseInt(r) == i
    ensures r[0] == '-' <==> i < 0
    ensures var d := if i < 0 then 1 else 0;
      && d < |r|
      && (forall k :: d <= k < |r| ==> IsDigit(r[k]))
      && (r[d] == '0' ==> i == 0 && r == "0")
  {
    if i < 0 then
      var digits := NatToString(-i);
      assert ("-" + digits)[1..] == digits;
      "-" + digits
    else
      NatToString(i)
  }

  lemma IntToStringInjective(i: int, j: int)
    requires IntToString(i) == IntToString(j)
    ensures i == j
  {
    assert ParseInt(IntToString(i)) == ParseInt(IntToString(j));
  }

  /** A format string with exactly one `{}` placeholder: `prefix + "{}" + suffix`. */
  datatype Template = Template(prefix: string, suffix: string)

  /** `template.format(i)` for an integer argument. */
  function Format(t: Template, i: int): string {
    t.prefix + IntToString(i) + t.suffix
  }

  /** A template whose placeholder ends it renders as its prefix followed by the number. */
  lemma FormatWithoutSuffix(prefix: string, i: int)
    ensures Format(Template(prefix, ""), i) == prefix + IntToString(i)
  {
    assert prefix + IntToString(i) + "" == prefix + IntToString(i);
  }

  /** Filling one template with two different integers never gives the same string. */
  lemma {:induction false} FormatInjective(t: Template, i: int, j: int)
    requires Format(t, i) == Format(t, j)
    ensures i == j
  {
    var x, y := IntToString(i), IntToString(j);
    var s := Format(t, i);
    assert |x| == |y|;
    assert s[|t.prefix|..|t.prefix| + |x|] == x;
    assert Format(t, j)[|t.prefix|..|t.prefix| + |y|] == y;
    IntToStringInjective(i, j);
  }
}

=== FILE: wrappers.dfy ===
/** Option and Result types used for the Python code's `None` values and raised exceptions. */
module Wrappers {

  /** A value that may be absent (`None` in the Python source, or a missing attribute). */
  datatype Option<+T> = None | Some(value: T) {

    predicate IsFailure() {
      None?
    }

    function PropagateFailure<U>(): Option<U>
      requires None?
    {
      None
    }

    function Extract(): T
      requires Some?
    {
      value
    }
  }

  /** The outcome of an operation that either returns a value or raises an error. */
  datatype Result<+R, +E> = Success(value: R) | Failure(error: E) {

    predicate IsFailure() {
      Failure?
    }

    function PropagateFailure<U>(): Result<U, E>
      requires Failure?
    {
      Failure(error)
    }

    function Extract(): R
      requires Success?
    {
      value
    }
  }
}
